=== FILE: README.md ===
# aipyapp execution engine, modelled in Dafny

aipyapp lets a language model solve a task by writing Python. A **task**
sends the instruction to the generator and parses its Markdown reply into
named code blocks. As long as the reply has a `main` block, the task runs it
on the **runner** and feeds the result back as the next prompt. This stops
when the reply is empty, has no `main`, the round budget is spent, or a stop
is requested. The runner holds the environment of named secrets, a session
map that persists between executions, and a history of executions. It picks
the runtime with `qpy_is_webapp`. It captures the two output streams and
builds a result dictionary. In it, every value stored under an environment
name is masked in the dictionaries reached through dictionaries and lists;
tuples are not looked into.

The project has seven modules:

- `Wrappers`: `Option`, standing in for a missing key and `None`.
- `Text`: Python whitespace, `str.strip`, `rstrip('\n')` and `in` on strings.
- `Values`: the Python values executed code can leave in `__result__`, with
  Python truthiness and whether `json.dumps` accepts them.
- `QPython`: `qpy_is_webapp`.
- `ReplyParser`: the block regular expression and `parse_reply`. A scanner
  is proved to yield exactly what `finditer` reports.
- `Runner`: `diff_dicts`, `filter_result`, `clear`, `setenv`, `getenv`, and
  `__call__` with its result dictionary and history entry.
- `Task`: the round budget and the loop of `run` with `process_code_reply`.

Things outside the engine enter as parameters:

- The execution of a fragment is an oracle `Runner.ExecOracle`. It is given
  the runtime, the code, the blocks and the whole state. It reports how the
  run ended, the raw stream text, `__result__`, and the environment and
  session it left.
- The generator's answers and the stop flags are sequences in `Task.Loop`.
  Answer i replies to call i. Past the end the answer is `""` and the flag is
  down.
- What `\w` matches depends on Python's Unicode tables, so it is a parameter
  `w`. The parser proofs assume only `ReplyParser.WordClassOk(w)`: a
  backtick is not a word character, and no word character is whitespace.
- The console answer to `getenv` is a string parameter.

`Task.Run` takes its parser and runner through `Task.Loop`.
`Task.ParsesWith` and `Task.CallsWith` say when these are `parse_reply` and
`__call__`, and `Task.Wire` builds such a loop.

Points of the code's behaviour worth stating plainly:

- A run that returns normally with a truthy `__result__` reports no
  message, error or interruption (aipyapp/aipy/runner.py:90-91).
  `Runner.Status` follows this.
- The feedback prompt carries the task's own instruction
  (aipyapp/aipy/task.py:130), not the instruction passed to `run`.
- `filter_result` masks with the environment as it is after the run
  (aipyapp/aipy/runner.py:110, 174). So a name the code obtained through
  `getenv` is masked as well.
- `filter_result` walks dictionaries and lists only, not tuples
  (`Runner.TupleIsNotWalked`).

## Model

| member | source | states |
|---|---|---|
| `QPython.IsWebappIff` | aipyapp/aipy/qpython.py:18-26 | code is a web app exactly when `#qpy:webapp` occurs wholly within the first 128 characters, that is, starting at an index of at most 117 |
| `QPython.SameHeaderSameAnswer` | aipyapp/aipy/qpython.py:20 | only the first 128 characters decide: codes that agree on them get the same answer |
| `QPython.ShortCodeIsNotWebapp` | aipyapp/aipy/qpython.py:23-26 | code shorter than the marker is never a web app |
| `QPython.MarkerFirstIsWebapp` | aipyapp/aipy/qpython.py:23-24 | code that begins with the marker is a web app |
| `QPython.LateMarkerIsIgnored` | aipyapp/aipy/qpython.py:20-26 | a marker that starts after index 117 is in the code but the code is not a web app |
| `Text.Contains` | aipyapp/aipy/qpython.py:23 | `pat in text` is true exactly when pat occurs at some index of text |
| `Text.StripIsTrimmedSlice` | aipyapp/aipy/runner.py:103 | `strip()` gives a slice of the text that has only whitespace before and after it and no whitespace at either of its ends |
| `Text.StripEmptyIffAllSpace` | aipyapp/aipy/runner.py:103-106 | the stripped text is empty exactly when the text is all whitespace, so a stream is attached only when it has a non-whitespace character |
| `Text.TrimEnd` | aipyapp/aipy/task.py:112 | `rstrip` yields a prefix, the removed suffix consists only of removed characters, and the kept text does not end in one |
| `ReplyParser.HeaderIsScanned` | aipyapp/aipy/task.py:43 | the opening line leaves the engine no choice: the fence is four backticks when four are present and three otherwise, and the tag, the whitespace and the name are each maximal runs |
| `ReplyParser.FirstClosing` | aipyapp/aipy/task.py:43 | the lazy body `(.*?)` ends at the first line that closes the fence, and `\s*$` ends the match at the latest possible end on that line |
| `ReplyParser.LongerFenceDoesNotClose` | aipyapp/aipy/task.py:43 | `^\1\s*$` needs exactly the opening fence: a line with one more backtick does not close it |
| `ReplyParser.MatchAt` | aipyapp/aipy/task.py:42-45 | a block reported at p starts at p, ends after p within the text, and is the match the engine picks at p |
| `ReplyParser.MatchAtComplete` | aipyapp/aipy/task.py:42-45 | whenever the pattern can match at p, a block is reported at p |
| `ReplyParser.ReportedUnique` | aipyapp/aipy/task.py:42-45 | the search reports at most one block at a position |
| `ReplyParser.ScanIsFindIter` | aipyapp/aipy/task.py:110 | the scanner yields what `finditer` yields: the match at the first matching position, then the search resumed at that match's end |
| `ReplyParser.FindIterFirst` | aipyapp/aipy/task.py:110 | the first block is at the first position where the pattern matches; there is no block exactly when it matches nowhere |
| `ReplyParser.FindIterUnique` | aipyapp/aipy/task.py:110 | `finditer` has a single outcome: two block sequences that both fit its definition are equal |
| `ReplyParser.CollectKeys` | aipyapp/aipy/task.py:109-112 | the names stored are exactly the names of the reported blocks |
| `ReplyParser.CollectLastWins` | aipyapp/aipy/task.py:110-112 | a name holds the body, trailing newlines removed, of the last block with that name |
| `ReplyParser.ParseReply` | aipyapp/aipy/task.py:105-114 | no stored body ends with a newline |
| `ReplyParser.ParseReplyCollectsFindIter` | aipyapp/aipy/task.py:105-114 | the block map is built from exactly the blocks `finditer` reports from the start of the reply, in order |
| `ReplyParser.NoMatchNoBlocks` | aipyapp/aipy/task.py:109-114 | a reply in which the pattern matches nowhere gives the empty map |
| `Runner.DiffDictsLoop` | aipyapp/aipy/runner.py:45-50 | the result holds exactly the keys of the first map that the second lacks or maps to another value, each with its value in the first |
| `Runner.DiffSelfEmpty` | aipyapp/aipy/runner.py:45-50 | a map has no difference from itself, and a diff never has keys outside the first map |
| `Runner.DiffEmptyIffContained` | aipyapp/aipy/runner.py:114-119 | the diff is empty, so the history entry has no `env` or `session` key, exactly when every entry of the first map is also in the second |
| `Runner.DiffRecoversFirst` | aipyapp/aipy/runner.py:45-50 | the first map is recovered from the second map and the diff |
| `Runner.FilterResult` | aipyapp/aipy/runner.py:171-182 | the filtered value can be encoded and is redacted: every environment name in a dictionary reached through dictionaries and lists is masked. A dictionary keeps its keys and every other key maps to the filtered old value; a list keeps its length and is filtered element by element; an encodable leaf is kept and any other leaf becomes `<filtered>` |
| `Runner.FilterAlongPath` | aipyapp/aipy/runner.py:171-182 | along any path of dictionary keys that are not environment names and list indices, the path exists in the filtered value exactly when it exists in the original, and it leads to the filtered form of the original's value there |
| `Runner.FilterAtPath` | aipyapp/aipy/runner.py:171-182 | at the end of such a path, a dictionary keeps its keys with environment names masked, a list keeps its length, an encodable leaf is kept and any other leaf becomes `<filtered>` |
| `Runner.MaskedAtPath` | aipyapp/aipy/runner.py:173-175 | an environment name present at the end of such a path maps to `<masked>` in the filtered value, at any depth |
| `Runner.FilterFixedPoints` | aipyapp/aipy/runner.py:171-182 | filtering leaves a value unchanged exactly when the value is encodable and already redacted |
| `Runner.FilterIdempotent` | aipyapp/aipy/runner.py:171-182 | filtering twice gives the same value as filtering once |
| `Runner.MaskedScenario` | aipyapp/aipy/runner.py:172-177 | `{name: anything, other: 1}` filters to `{name: '<masked>', other: 1}` when only `name` is in the environment |
| `Runner.TupleIsNotWalked` | aipyapp/aipy/runner.py:178-181 | an encodable tuple comes back unchanged, so an environment name inside a dictionary in it keeps its value |
| `Runner.Getenv` | aipyapp/aipy/runner.py:138-153 | a known name answers its value, or the default when the value is falsy, and changes nothing. An unknown name answers the default in automatic mode; otherwise it stores and answers the stripped console answer when that is non-blank, and answers the default when it is blank. The session and history are never touched |
| `Runner.GetenvAnswer` | aipyapp/aipy/runner.py:153 | the answer is either the default or a truthy value |
| `Runner.GetenvRemembers` | aipyapp/aipy/runner.py:141-152 | once an answer is stored, asking again answers the same value and changes nothing, whatever the default and the console say |
| `Runner.GetenvAfterSetenv` | aipyapp/aipy/runner.py:138-169 | after `setenv` of a truthy value, `getenv` of that name answers it |
| `Runner.Captured` | aipyapp/aipy/runner.py:103-106 | a stream is attached exactly when its stripped text is non-empty, and then as the stripped text |
| `Runner.Status` | aipyapp/aipy/runner.py:84-97 | an exception gives its text and traceback and no message; an interrupt gives the interruption message only; a normal end gives the completion message exactly when `__result__` is falsy |
| `Runner.BuildResult` | aipyapp/aipy/runner.py:84-110 | the status of the outcome, the stripped streams when non-blank, and `__result__` filtered with the post-run environment exactly when it is truthy |
| `Runner.ResultIsSerializable` | aipyapp/aipy/runner.py:103-110 | the result dictionary can always be encoded, and no environment name leaks through a dictionary or list of `__result__` |
| `Runner.Call` | aipyapp/aipy/runner.py:73-122 | the runtime is the one `qpy_is_webapp` picks, and the result is the built result. Environment and session are as the run left them. The call appends exactly one entry recording the code and result. The entry's environment diff keeps the pre-call values of removed or overwritten names, and its session diff the post-call values of added or changed names |
| `Runner.HistoryGrowsByOne` | aipyapp/aipy/runner.py:121 | n executions add n entries and keep the earlier ones |
| `Runner.HistoryAfterClear` | aipyapp/aipy/runner.py:61-64 | `clear` keeps the environment and empties the session; after it and n executions the history has n + 1 entries, the first holding the environment |
| `Runner.InitState` | aipyapp/aipy/runner.py:53-64 | a new runner has one history entry holding its environment, an empty session, and the automatic-answer setting it was given |
| `Task.Budget` | aipyapp/aipy/task.py:210-212 | the budget is at least 1. It is the argument when that is at least 1 and 16 when it is negative. Otherwise it is the task's own budget when that is at least 1, and 16 if not |
| `Task.FirstCall` | aipyapp/aipy/task.py:202-213 | without an instruction the first call sends the user prompt with the task's system prompt; with one it sends the instruction with no system prompt |
| `Task.Rounds` | aipyapp/aipy/task.py:214-221 | one feedback call per execution, and never more executions than the budget leaves |
| `Task.RoundsStep` | aipyapp/aipy/task.py:214-219 | execution j of the loop from k runs `main` of the non-empty answer k + j with its whole block map, and feedback j carries its result |
| `Task.RoundsEnding` | aipyapp/aipy/task.py:214-221 | after n executions the loop from k ended on a stop flag raised after the last execution and after no earlier one, on an empty answer, on the spent budget, or on an answer without `main` |
| `Task.RoundsHistory` | aipyapp/aipy/task.py:214-221 | the loop adds one runner history entry per execution after the earlier ones |
| `Task.RoundsHistoryEntry` | aipyapp/aipy/task.py:219 | each new history entry records the code and result of its execution |
| `Task.RoundsHistoryEntries` | aipyapp/aipy/task.py:214-221 | every new history entry records its execution |
| `Task.CallsAppendEach` | aipyapp/aipy/runner.py:112-121 | the runner's `__call__` appends one entry per call, recording the code and the result |
| `Task.Run` | aipyapp/aipy/task.py:197-223 | the first call is as `FirstCall` says; there is one generator call more than there are executions; the round counter ends one above the number of executions; executions never exceed the budget |
| `Task.RunTraceLoop` | aipyapp/aipy/task.py:213-219 | execution j runs `main` of the non-empty answer to call j with the whole block map, and call j + 1 sends back its result with the task's instruction |
| `Task.RunTrace` | aipyapp/aipy/task.py:213-219 | the same, with the block map of execution j being what `parse_reply` finds in answer j |
| `Task.RunEndingLoop` | aipyapp/aipy/task.py:209-221 | with n executions, `run` ended because a stop was requested (exactly when the flag was raised after execution n - 1; none was raised earlier), because answer n was empty, because n reached the budget, or because answer n had no `main` |
| `Task.RunEnding` | aipyapp/aipy/task.py:209-221 | the same, with `parse_reply` finding no `main` block in answer n in the last case |
| `Task.RunHistory` | aipyapp/aipy/task.py:214-221 | `run` adds one runner history entry per execution after the earlier ones, each recording its execution's code and result |
| `Task.RunFullBudget` | aipyapp/aipy/task.py:210-221 | when every answer within the budget has `main` and no stop flag comes before the last round, `run` uses the whole budget |
| `Task.RunBudgetOne` | aipyapp/aipy/task.py:210-219 | with a budget of one and a first answer that has `main`, exactly one execution happens |
| `Task.RunWithoutBlocks` | aipyapp/aipy/task.py:213-217 | a first answer in which the pattern matches nowhere ends `run` at once: no execution, round counter 1, runner untouched |

## Left out

- `Runner.Call`: calls that raise out of `__call__` are not modelled. No
  history entry is appended when one does. It raises in these cases, among
  others:
  - `is_json_serializable` catches only `TypeError` and `OverflowError`
    (aipyapp/aipy/runner.py:42). A `ValueError` from `json.dumps` therefore
    escapes `filter_result` (runner.py:110); an example is an integer over
    the interpreter's digit limit.
  - A dictionary or list that contains itself makes `filter_result` recurse
    until `RecursionError` (runner.py:177, 179). The call at runner.py:110
    lies outside the `try`.
  - A `__result__` whose truth test raises is caught as a fault at
    runner.py:90, then raises again, uncaught, at runner.py:109.
    `Values.Value` has no such value.
  - `!=` can raise in `diff_dicts` (runner.py:48), for example on an
    array-like value whose comparison has no single truth value.
  - An exception derived from `BaseException` that is neither `Exception`,
    `SystemExit` nor `KeyboardInterrupt` (`raise GeneratorExit`, a
    `BaseExceptionGroup`) passes both handlers at runner.py:92 and 96 and
    leaves `exec` at runner.py:88.
  - Code that runs `del __session__` makes `gs['__session__']` raise
    `KeyError` at runner.py:117. Code that rebinds `__session__` to a value
    that is not a dictionary makes `dict1.items()` raise `AttributeError` at
    runner.py:47. Both lie outside the `try`.
- `Task.Run`: `json.dumps` in `process_code_reply` (task.py:126) accepts
  dictionary keys of type str, int, float, bool and None, and turns them
  into strings; any other key type makes it raise, and `run` with it.
  `Values.Value` has string keys only, so a `__result__` such as
  `{2024: 5}`, which runs normally, is not represented.
- `Runner.Call`: `filter_result` overwrites the entries of the declared
  dictionary in place (runner.py:175, 177). When that dictionary is also
  reachable from the environment or the session, the program changes them
  too, and the model does not:
  - With `__result__ = runtime.env`, every environment entry becomes
    `'<masked>'`. The environment diff then records every name, and a later
    `getenv` answers its first character, `'<'`.
  - A dictionary the code also stored in `__session__` keeps its masked
    entries in the session for later rounds.
  - `Call` returns the environment and session of the report untouched.
- `Runner.Call`: the pre-call snapshots at runner.py:79-81 are shallow copies,
  which the model does not show:
  - A value mutated in place is equal in both snapshots and is not recorded
    as changed.
  - Code that rebinds `__session__` changes the copy `gs` only, so the
    binding does not persist. Yet the rebound map is what the session diff
    at runner.py:117 compares.
  - The model takes the session the oracle reports as both the next session
    and the diff's source.
- `Runner.Call`: the executed code can reach the live history list, as
  `__history__` (bound to `self.history` at runner.py:62 and carried into
  `gs` by the shallow copy at runner.py:81) and through `runtime`, the runner
  itself. `__history__.clear()`, `__history__.append(...)` or
  `runtime.clear()` change or replace the list that runner.py:121 appends
  to. `Runner.ExecReport` has no history field, and `Call` always appends one
  entry to the history it was given, so the model assumes the executed code
  does not touch `__history__` or `runtime`.
- `Runner.HistoryGrowsByOne`: n executions add exactly n entries and keep
  the earlier ones only for code that leaves `__history__` and `runtime`
  alone (runner.py:62, 121).
- `Runner.HistoryAfterClear`: the count of n + 1 entries after `clear` and n
  executions assumes the same of the executed code (runner.py:62, 121).
- `Task.CallsAppendEach`: each call appending one entry and keeping the
  earlier ones holds for code that does not touch `__history__` or `runtime`
  (runner.py:62, 121); the `run` history lemmas built on it inherit the
  assumption.
- `Runner.Clear`: `history[0]` holds a live reference to the environment
  dictionary (runner.py:61). Later `setenv` calls therefore show up in it.
  The model records the environment as it was at the clear.
- `Runner.DiffDictsLoop`, `Runner.DiffDicts`: values are compared
  structurally. Python's `1 == True == 1.0` and identity equality of plain
  objects (`Values.Opaque`) are not modelled.
- `Values.IsSerializable`: floats are finite reals. NaN and infinities,
  which `json.dumps` encodes by default, are not represented.
- The executed code itself: `exec` with `INIT_IMPORTS`, `qpy_exec` and
  `create_temp_py_file` (qpython.py:7-35), stream redirection, and the SIGINT
  handler. `Runner.ExecOracle` stands for all of them, so `qpy_exec`'s
  reference to an undefined `gs` (qpython.py:35) is not modelled.
- Console and UI output is left out (`box`, `print_summary`, the status
  line, `event_bus` broadcasts, the terminal bell), as are the translated
  message texts (`T`, fixed to English here) and the indentation of the
  JSON feedback text.
- `build_user_prompt`: the platform fields (Python version, platform, date,
  working directory, terminal) come from the host. Only the `task` field is
  kept.
- `save`, `save_html`, `done` and `publish` are left out because they do
  file and network I/O. `chat` is plain generator I/O. `step` calls a
  method the class does not define.
- `install_packages`, `display` and `input` of the runner are left out as
  console, package-manager and image I/O.
- `Task.Budget`: `max_rounds` values of other Python types (floats,
  strings) are not modelled; the budget is an optional integer.
- `aipyapp/main.py` and `setup.py` are command-line wiring and packaging,
  and are not part of this model.

=== FILE: qpython.dfy ===
/**
 The check that decides whether a fragment is a QPython web app, which the
 runner hands to the Android runtime instead of the default interpreter.
 */
module QPython {
  import opened Text

  /** The marker a web app carries near the top of its source. */
  const Marker: string := "#qpy:webapp"

  /** How many leading characters of the code are inspected. */
  const HeaderLength: nat := 128

  /** Python's `code[:128]`. */
  function Header(code: string): string
  {
    if |code| <= HeaderLength then code else code[..HeaderLength]
  }

  /** `qpy_is_webapp`: the marker occurs within the header. */
  predicate IsWebapp(code: string)
  {
    Contains(Header(code), Marker)
  }

  /** The marker counts exactly when one occurrence of it lies wholly inside the
      first 128 characters, that is, starts at an index no greater than 117. */
  lemma IsWebappIff(code: string)
    ensures IsWebapp(code) <==> exists i :: 0 <= i <= HeaderLength - |Marker| && OccursAt(code, Marker, i)
  {
    var h := Header(code);
    if IsWebapp(code) {
      var i :| OccursAt(h, Marker, i);
      assert code[i..i + |Marker|] == h[i..i + |Marker|];
      assert OccursAt(code, Marker, i);
    }
    if exists i :: 0 <= i <= HeaderLength - |Marker| && OccursAt(code, Marker, i) {
      var i :| 0 <= i <= HeaderLength - |Marker| && OccursAt(code, Marker, i);
      assert h[i..i + |Marker|] == code[i..i + |Marker|];
      assert OccursAt(h, Marker, i);
    }
  }

  /** Only the header matters: codes that agree on their first 128 characters get the same answer. */
  lemma SameHeaderSameAnswer(a: string, b: string)
    requires |a| >= HeaderLength && |b| >= HeaderLength
    requires a[..HeaderLength] == b[..HeaderLength]
    ensures IsWebapp(a) == IsWebapp(b)
  {
    assert Header(a) == Header(b);
  }

  /** Code shorter than the marker never counts as a web app. */
  lemma ShortCodeIsNotWebapp(code: string)
    requires |code| < |Marker|
    ensures !IsWebapp(code)
  {
  }

  /** Code that begins with the marker is a web app. */
  lemma MarkerFirstIsWebapp(rest: string)
    ensures IsWebapp(Marker + rest)
  {
    var code := Marker + rest;
    assert Header(code)[0..|Marker|] == Marker;
    assert OccursAt(Header(code), Marker, 0);
  }

  /** A marker that starts after index 117 is not seen: after 118 or more
      characters with no `#` among them, the marker is present in the code but
      the code is not a web app. */
  lemma LateMarkerIsIgnored(pad: string)
    requires |pad| >= HeaderLength - |Marker| + 1
    requires forall k :: 0 <= k < |pad| ==> pad[k] != '#'
    ensures Contains(pad + Marker, Marker)
    ensures !IsWebapp(pad + Marker)
  {
    var code := pad + Marker;
    assert code[|pad|..|pad| + |Marker|] == Marker;
    assert OccursAt(code, Marker, |pad|);
    forall i | 0 <= i <= HeaderLength - |Marker|
      ensures !OccursAt(code, Marker, i)
    {
      assert code[i] == pad[i];
      if i + |Marker| <= |code| {
        assert code[i..i + |Marker|][0] != Marker[0];
      }
    }
    IsWebappIff(code);
  }
}

=== FILE: reply_parser.dfy ===
/**
 The reply parser of a task: the named code blocks of a generator reply.

 `Task.parse_reply` searches the reply with the regular expression

     ^(`{3,4})(\w+)\s+([\w\-\.]+)\n(.*?)^\1\s*$      (DOTALL and MULTILINE)

 through `finditer`, and stores the fourth group, trailing newlines removed,
 under the third. This module states what that search reports as predicates
 over the text (`Header`, `Closing`, `ReportedAt`, `IsFindIter`), computes it
 with a scanner (`MatchAt`, `Scan`), and proves the two agree.

 `\w` depends on Python's Unicode tables, so the word class is a parameter;
 the agreement proofs assume only `WordClassOk` of it.
 */
module ReplyParser {
  import opened Wrappers
  import opened Text

  /** The characters `\w` matches. */
  type WordClass = char -> bool

  /** What the parser relies on about `\w`: a backtick is not a word
      character and no word character is whitespace. Python's `\w` (letters,
      digits and `_`) has both properties. */
  ghost predicate WordClassOk(w: WordClass)
  {
    !w('`') && forall c :: w(c) ==> !IsSpace(c)
  }

  /** ASCII letters, digits and `_`: the ASCII part of Python's `\w`. */
  predicate AsciiWord(c: char)
  {
    ('a' <= c <= 'z') || ('A' <= c <= 'Z') || ('0' <= c <= '9') || c == '_'
  }

  lemma AsciiWordOk()
    ensures WordClassOk(AsciiWord)
  {
  }

  predicate IsBacktick(c: char)
  {
    c == '`'
  }

  /** The characters `[\w\-\.]` matches in a block name. */
  function NameClass(w: WordClass): char -> bool
  {
    c => w(c) || c == '-' || c == '.'
  }

  /** t[i..j] consists of characters of the class p. */
  predicate Span(t: string, i: int, j: int, p: char -> bool)
  {
    0 <= i <= j <= |t| && forall k {:trigger p(t[k])} :: i <= k < j ==> p(t[k])
  }

  /** `^` in MULTILINE mode: the start of the text or just after a newline. */
  predicate LineStart(t: string, p: int)
  {
    p == 0 || (0 < p <= |t| && t[p - 1] == '\n')
  }

  /** `$` in MULTILINE mode: the end of the text or just before a newline. */
  predicate LineEnd(t: string, g: int)
  {
    g == |t| || (0 <= g < |t| && t[g] == '\n')
  }

  /** The opening line matched at p: a fence of f backticks, the language tag
      t[p+f..b], whitespace t[b..c] (which may include newlines), the name
      t[c..d], and the newline at d. */
  predicate Header(w: WordClass, t: string, p: int, f: int, b: int, c: int, d: int)
  {
    && (f == 3 || f == 4)
    && LineStart(t, p)
    && Span(t, p, p + f, IsBacktick)
    && p + f < b < c < d < |t|
    && Span(t, p + f, b, w)
    && Span(t, b, c, IsSpace)
    && Span(t, c, d, NameClass(w))
    && t[d] == '\n'
  }

  /** `^\1\s*$` matched at e, ending at g: a line that starts with the same f
      backticks, followed by whitespace up to a line end. */
  predicate Closing(t: string, f: int, e: int, g: int)
  {
    && LineStart(t, e)
    && Span(t, e, e + f, IsBacktick)
    && Span(t, e + f, g, IsSpace)
    && LineEnd(t, g)
  }

  /** A way for the whole pattern to match at p, with the body t[d+1..e]. */
  predicate RegexMatch(w: WordClass, t: string, p: int, f: int, b: int, c: int, d: int, e: int, g: int)
  {
    Header(w, t, p, f, b, c, d) && d + 1 <= e && Closing(t, f, e, g)
  }

  /** The way the regular expression engine picks: the lazy body stops at the
      first closing line, and the greedy `\s*` then runs as far as it can. The
      opening line leaves no choice (`HeaderIsScanned`). */
  ghost predicate Preferred(w: WordClass, t: string, p: int, f: int, b: int, c: int, d: int, e: int, g: int)
  {
    && RegexMatch(w, t, p, f, b, c, d, e, g)
    && (forall e', g' :: d + 1 <= e' < e ==> !Closing(t, f, e', g'))
    && (forall g' :: g < g' ==> !Closing(t, f, e, g'))
  }

  /** One reported block: where the match starts, the name, the raw body, and
      where the match ends (the search resumes there). */
  datatype Block = Block(start: nat, name: string, body: string, end: nat)

  /** m is the match the search reports when it tries position p. */
  ghost predicate ReportedAt(w: WordClass, t: string, p: int, m: Block)
  {
    exists f, b, c, d, e, g ::
      Preferred(w, t, p, f, b, c, d, e, g) && m == Block(p, t[c..d], t[d + 1..e], g)
  }

  /** The pattern matches at p in some way. */
  ghost predicate AnyMatchAt(w: WordClass, t: string, p: int)
  {
    exists f, b, c, d, e, g :: RegexMatch(w, t, p, f, b, c, d, e, g)
  }

  /** bs is what `finditer` yields when the search starts at pos: the first
      position from pos on where the pattern matches, the match reported
      there, and the rest of the search from the end of that match. */
  ghost predicate IsFindIter(w: WordClass, t: string, pos: int, bs: seq<Block>)
    decreases |bs|
  {
    if bs == [] then
      forall p :: pos <= p <= |t| ==> !AnyMatchAt(w, t, p)
    else
      && pos <= bs[0].start
      && ReportedAt(w, t, bs[0].start, bs[0])
      && (forall p :: pos <= p < bs[0].start ==> !AnyMatchAt(w, t, p))
      && IsFindIter(w, t, bs[0].end, bs[1..])
  }

  // ---------------------------------------------------------------------------
  // The scanner
  // ---------------------------------------------------------------------------

  /** The end of the longest run of p-characters starting at i. */
  function RunEnd(t: string, i: nat, p: char -> bool): (j: nat)
    requires i <= |t|
    ensures i <= j <= |t| && Span(t, i, j, p)
    ensures j == |t| || !p(t[j])
    decreases |t| - i
  {
    if i < |t| && p(t[i]) then RunEnd(t, i + 1, p) else i
  }

  /** No run of p-characters from i goes past RunEnd. */
  lemma RunEndIsLongest(t: string, i: nat, j: int, p: char -> bool)
    requires i <= |t| && Span(t, i, j, p)
    ensures j <= RunEnd(t, i, p)
  {
  }

  /** A run of p-characters from i that stops at a non-p character (or the
      end of the text) is the one RunEnd finds. */
  lemma RunEndAt(t: string, i: nat, j: int, p: char -> bool)
    requires i <= |t| && Span(t, i, j, p)
    requires j == |t| || !p(t[j])
    ensures RunEnd(t, i, p) == j
  {
    RunEndIsLongest(t, i, j, p);
  }

  /** The last newline in t[lo..hi], if any. */
  function LastNewline(t: string, lo: nat, hi: nat): (o: Option<nat>)
    requires lo <= hi <= |t|
    ensures o.Some? ==> lo <= o.value < hi && t[o.value] == '\n'
    ensures o.Some? ==> forall k :: o.value < k < hi ==> t[k] != '\n'
    ensures o.None? ==> forall k :: lo <= k < hi ==> t[k] != '\n'
    decreases hi
  {
    if hi == lo then None
    else if t[hi - 1] == '\n' then Some(hi - 1)
    else LastNewline(t, lo, hi - 1)
  }

  /** Where a closing line at e ends the match, if the line at e closes a
      fence of f backticks: `\s*` takes all the whitespace it can, and gives
      back to the last newline in it when the text goes on after it. */
  function ClosingEnd(t: string, f: nat, e: nat): (o: Option<nat>)
    requires e <= |t|
    ensures o.Some? ==> Closing(t, f, e, o.value)
    ensures o.Some? ==> forall g :: o.value < g ==> !Closing(t, f, e, g)
    ensures o.None? ==> forall g :: !Closing(t, f, e, g)
  {
    if LineStart(t, e) && Span(t, e, e + f, IsBacktick) then
      var r := RunEnd(t, e + f, IsSpace);
      ClosingEndLemma(t, f, e, r);
      if r == |t| then Some(|t|) else LastNewline(t, e + f, r)
    else
      None
  }

  /** Every closing end at e lies within the whitespace run, and before its
      end unless that is the end of the text. */
  lemma ClosingEndLemma(t: string, f: nat, e: nat, r: nat)
    requires e + f <= |t| && r == RunEnd(t, e + f, IsSpace)
    ensures forall g :: Closing(t, f, e, g) ==> g <= r && (g == r ==> r == |t|)
    ensures forall g :: e + f <= g < r && t[g] == '\n' ==> Span(t, e + f, g, IsSpace)
  {
    forall g | Closing(t, f, e, g)
      ensures g <= r && (g == r ==> r == |t|)
    {
      RunEndIsLongest(t, e + f, g, IsSpace);
    }
  }

  /** The first closing line at or after e, with the end of the match there. */
  function FirstClosing(t: string, f: nat, e: nat): (o: Option<(nat, nat)>)
    requires e <= |t|
    ensures o.Some? ==> e <= o.value.0 <= |t| && Closing(t, f, o.value.0, o.value.1)
    ensures o.Some? ==> forall e', g' :: e <= e' < o.value.0 ==> !Closing(t, f, e', g')
    ensures o.Some? ==> forall g' :: o.value.1 < g' ==> !Closing(t, f, o.value.0, g')
    ensures o.None? ==> forall e', g' :: e <= e' ==> !Closing(t, f, e', g')
    decreases |t| - e
  {
    match ClosingEnd(t, f, e)
    case Some(g) => Some((e, g))
    case None => if e == |t| then None else FirstClosing(t, f, e + 1)
  }

  /** The block the search reports at p, if the pattern matches there. */
  function MatchAt(w: WordClass, t: string, p: nat): (o: Option<Block>)
    requires p <= |t|
    ensures o.Some? ==> o.value.start == p < o.value.end <= |t| && ReportedAt(w, t, p, o.value)
  {
    if !LineStart(t, p) then None
    else
      var f := if Span(t, p, p + 4, IsBacktick) then 4 else 3;
      if !Span(t, p, p + f, IsBacktick) then None
      else
        var b := RunEnd(t, p + f, w);
        var c := RunEnd(t, b, IsSpace);
        var d := RunEnd(t, c, NameClass(w));
        if b == p + f || c == b || d == c || d == |t| || t[d] != '\n' then None
        else
          match FirstClosing(t, f, d + 1)
          case None => None
          case Some((e, g)) =>
            assert Preferred(w, t, p, f, b, c, d, e, g);
            Some(Block(p, t[c..d], t[d + 1..e], g))
  }

  /** The scanner's run of the search from pos to the end of the text. */
  function Scan(w: WordClass, t: string, pos: nat): (bs: seq<Block>)
    requires pos <= |t|
    decreases |t| - pos
  {
    match MatchAt(w, t, pos)
    case Some(m) => [m] + Scan(w, t, m.end)
    case None => if pos == |t| then [] else Scan(w, t, pos + 1)
  }

  // ---------------------------------------------------------------------------
  // The scanner computes the search
  // ---------------------------------------------------------------------------

  /** An opening line leaves the engine no choice: the fence is four backticks
      when there are four and three otherwise, and the tag, the whitespace and
      the name are the longest runs of their classes. */
  lemma HeaderIsScanned(w: WordClass, t: string, p: int, f: int, b: int, c: int, d: int)
    requires WordClassOk(w)
    requires Header(w, t, p, f, b, c, d)
    ensures f == (if Span(t, p, p + 4, IsBacktick) then 4 else 3)
    ensures b == RunEnd(t, p + f, w)
    ensures c == RunEnd(t, b, IsSpace)
    ensures d == RunEnd(t, c, NameClass(w))
  {
    assert f == 3 ==> !IsBacktick(t[p + 3]) by {
      assert f == 3 ==> w(t[p + 3]);
    }
    assert !w(t[b]) by {
      assert IsSpace(t[b]);
    }
    RunEndAt(t, p + f, b, w);
    assert !IsSpace(t[c]) by {
      assert NameClass(w)(t[c]);
    }
    RunEndAt(t, b, c, IsSpace);
    assert !NameClass(w)(t[d]) by {
      assert IsSpace(t[d]);
    }
    RunEndAt(t, c, d, NameClass(w));
  }

  /** Whenever the pattern can match at p, the scanner reports a block there. */
  lemma MatchAtComplete(w: WordClass, t: string, p: nat)
    requires WordClassOk(w) && p <= |t|
    ensures AnyMatchAt(w, t, p) ==> MatchAt(w, t, p).Some?
  {
    if AnyMatchAt(w, t, p) {
      var f, b, c, d, e, g :| RegexMatch(w, t, p, f, b, c, d, e, g);
      HeaderIsScanned(w, t, p, f, b, c, d);
    }
  }

  /** Two preferred matches at the same position are the same match. */
  lemma PreferredUnique(w: WordClass, t: string, p: int,
                        f1: int, b1: int, c1: int, d1: int, e1: int, g1: int,
                        f2: int, b2: int, c2: int, d2: int, e2: int, g2: int)
    requires WordClassOk(w)
    requires Preferred(w, t, p, f1, b1, c1, d1, e1, g1)
    requires Preferred(w, t, p, f2, b2, c2, d2, e2, g2)
    ensures f1 == f2 && b1 == b2 && c1 == c2 && d1 == d2 && e1 == e2 && g1 == g2
  {
    HeaderIsScanned(w, t, p, f1, b1, c1, d1);
    HeaderIsScanned(w, t, p, f2, b2, c2, d2);
    assert e1 == e2 by {
      assert Closing(t, f1, e1, g1) && Closing(t, f2, e2, g2);
    }
    assert g1 == g2 by {
      assert Closing(t, f1, e1, g1) && Closing(t, f2, e2, g2);
    }
  }

  /** The way a reported block matched. */
  lemma ReportedWitness(w: WordClass, t: string, p: int, m: Block) returns (f: int, b: int, c: int, d: int, e: int, g: int)
    requires ReportedAt(w, t, p, m)
    ensures Preferred(w, t, p, f, b, c, d, e, g)
    ensures m == Block(p, t[c..d], t[d + 1..e], g)
  {
    f, b, c, d, e, g :| Preferred(w, t, p, f, b, c, d, e, g) && m == Block(p, t[c..d], t[d + 1..e], g);
  }

  /** The search reports at most one block at a position. */
  lemma ReportedUnique(w: WordClass, t: string, p: int, m1: Block, m2: Block)
    requires WordClassOk(w)
    requires ReportedAt(w, t, p, m1) && ReportedAt(w, t, p, m2)
    ensures m1 == m2
  {
    var f1, b1, c1, d1, e1, g1 := ReportedWitness(w, t, p, m1);
    var f2, b2, c2, d2, e2, g2 := ReportedWitness(w, t, p, m2);
    PreferredUnique(w, t, p, f1, b1, c1, d1, e1, g1, f2, b2, c2, d2, e2, g2);
  }

  /** A search that reports m first and then rest. */
  lemma FindIterCons(w: WordClass, t: string, m: Block, rest: seq<Block>)
    requires ReportedAt(w, t, m.start, m) && IsFindIter(w, t, m.end, rest)
    ensures IsFindIter(w, t, m.start, [m] + rest)
  {
    assert ([m] + rest)[1..] == rest;
  }

  /** A position where the pattern does not match does not change the search. */
  lemma FindIterSkip(w: WordClass, t: string, pos: int, bs: seq<Block>)
    requires pos < |t| && !AnyMatchAt(w, t, pos) && IsFindIter(w, t, pos + 1, bs)
    ensures IsFindIter(w, t, pos, bs)
  {
  }

  /** The scanner yields exactly what `finditer` yields. */
  lemma {:induction false} ScanIsFindIter(w: WordClass, t: string, pos: nat)
    requires WordClassOk(w) && pos <= |t|
    ensures IsFindIter(w, t, pos, Scan(w, t, pos))
    decreases |t| - pos
  {
    MatchAtComplete(w, t, pos);
    var o := MatchAt(w, t, pos);
    if o.Some? {
      ScanIsFindIter(w, t, o.value.end);
      FindIterCons(w, t, o.value, Scan(w, t, o.value.end));
    } else if pos < |t| {
      ScanIsFindIter(w, t, pos + 1);
      FindIterSkip(w, t, pos, Scan(w, t, pos + 1));
    }
  }

  /** A match reported at p is a match at p. */
  lemma ReportedIsMatch(w: WordClass, t: string, p: int, m: Block)
    requires ReportedAt(w, t, p, m)
    ensures AnyMatchAt(w, t, p) && p < |t|
  {
    var f, b, c, d, e, g :| Preferred(w, t, p, f, b, c, d, e, g) && m == Block(p, t[c..d], t[d + 1..e], g);
    assert RegexMatch(w, t, p, f, b, c, d, e, g);
  }

  /** The first block of a search is at the first position where the pattern
      matches, and an empty search means it matches nowhere. */
  lemma FindIterFirst(w: WordClass, t: string, pos: int, bs: seq<Block>)
    requires IsFindIter(w, t, pos, bs)
    ensures bs == [] ==> forall p :: pos <= p <= |t| ==> !AnyMatchAt(w, t, p)
    ensures bs != [] ==> pos <= bs[0].start < |t| && AnyMatchAt(w, t, bs[0].start)
    ensures bs != [] ==> forall p :: pos <= p < bs[0].start ==> !AnyMatchAt(w, t, p)
  {
    if bs != [] {
      ReportedIsMatch(w, t, bs[0].start, bs[0]);
    }
  }

  /** The search has one outcome: two block sequences that both satisfy
      `IsFindIter` from the same position are equal. */
  lemma {:induction false} FindIterUnique(w: WordClass, t: string, pos: int, bs1: seq<Block>, bs2: seq<Block>)
    requires WordClassOk(w)
    requires IsFindIter(w, t, pos, bs1) && IsFindIter(w, t, pos, bs2)
    ensures bs1 == bs2
    decreases |bs1|
  {
    FindIterFirst(w, t, pos, bs1);
    FindIterFirst(w, t, pos, bs2);
    assert (bs1 == []) == (bs2 == []);
    if bs1 != [] {
      assert bs1[0].start == bs2[0].start;
      ReportedUnique(w, t, bs1[0].start, bs1[0], bs2[0]);
      FindIterUnique(w, t, bs1[0].end, bs1[1..], bs2[1..]);
      assert bs1 == [bs1[0]] + bs1[1..];
      assert bs2 == [bs2[0]] + bs2[1..];
    }
  }

  /** A closing line needs exactly the opening fence: a line with one more
      backtick than the fence does not close it. */
  lemma LongerFenceDoesNotClose(t: string, f: nat, e: nat)
    requires Span(t, e, e + f + 1, IsBacktick)
    ensures forall g :: !Closing(t, f, e, g)
  {
    assert IsBacktick(t[e + f]) && !IsSpace(t[e + f]) && t[e + f] != '\n';
    forall g
      ensures !Closing(t, f, e, g)
    {
      assert g > e + f ==> !Span(t, e + f, g, IsSpace);
    }
  }

  // ---------------------------------------------------------------------------
  // parse_reply
  // ---------------------------------------------------------------------------

  /** No later block in bs has the name of bs[i]. */
  predicate LastWithName(bs: seq<Block>, i: int)
    requires 0 <= i < |bs|
  {
    forall j :: i < j < |bs| ==> bs[j].name != bs[i].name
  }

  /** The loop of `parse_reply`: each block stored under its name with trailing
      newlines stripped; a later block overwrites an earlier one of the same name. */
  function Collect(bs: seq<Block>): (r: map<string, string>)
    ensures forall k :: k in r ==> r[k] == [] || r[k][|r[k]| - 1] != '\n'
    decreases |bs|
  {
    if bs == [] then map[]
    else Collect(bs[..|bs| - 1])[bs[|bs| - 1].name := RStripNewlines(bs[|bs| - 1].body)]
  }

  /** The names stored are the names of the blocks. */
  lemma {:induction false} CollectKeys(bs: seq<Block>)
    ensures Collect(bs).Keys == set i | 0 <= i < |bs| :: bs[i].name
    decreases |bs|
  {
    if bs != [] {
      var init := bs[..|bs| - 1];
      CollectKeys(init);
      assert forall i :: 0 <= i < |init| ==> init[i] == bs[i];
    }
  }

  /** Each name holds the body of the last block with that name. */
  lemma {:induction false} CollectLastWins(bs: seq<Block>, i: int)
    requires 0 <= i < |bs| && LastWithName(bs, i)
    ensures bs[i].name in Collect(bs)
    ensures Collect(bs)[bs[i].name] == RStripNewlines(bs[i].body)
    decreases |bs|
  {
    if i < |bs| - 1 {
      var init := bs[..|bs| - 1];
      assert init[i] == bs[i];
      CollectLastWins(init, i);
    }
  }

  /** `parse_reply`: the block map of a reply. */
  function ParseReply(w: WordClass, reply: string): (r: map<string, string>)
    ensures forall k :: k in r ==> r[k] == [] || r[k][|r[k]| - 1] != '\n'
  {
    Collect(Scan(w, reply, 0))
  }

  /** `parse_reply` stores exactly what the search finds, in the order it finds it. */
  lemma ParseReplyCollectsFindIter(w: WordClass, reply: string, bs: seq<Block>)
    requires WordClassOk(w)
    requires IsFindIter(w, reply, 0, bs)
    ensures ParseReply(w, reply) == Collect(bs)
  {
    ScanIsFindIter(w, reply, 0);
    FindIterUnique(w, reply, 0, bs, Scan(w, reply, 0));
  }

  /** A reply in which the pattern matches nowhere gives the empty map. */
  lemma NoMatchNoBlocks(w: WordClass, reply: string)
    requires WordClassOk(w)
    requires forall p :: 0 <= p <= |reply| ==> !AnyMatchAt(w, reply, p)
    ensures ParseReply(w, reply) == map[]
  {
    assert IsFindIter(w, reply, 0, []);
    ParseReplyCollectsFindIter(w, reply, []);
  }
}

=== FILE: runner.dfy ===
/**
 The execution context: the environment map of named secrets, the session
 map that persists across executions, the execution history, and one
 execution of a fragment with its result assembled, redacted and recorded.

 The execution itself is an oracle: given the chosen runtime, the code, the
 fragments of the round and the whole pre-call state, it reports how the run
 ended, what it wrote to the two streams, what it declared as its result, and
 the environment and session maps as the run left them.
 */
module Runner {
  import opened Wrappers
  import opened Text
  import opened Values
  import QPython

  /** What the executed code may change between calls: name to value. */
  type Session = map<string, Value>

  /** An environment entry is Python's `(value, desc)` pair. */
  datatype EnvEntry = EnvEntry(value: Value, desc: Value)

  type Env = map<string, EnvEntry>

  /** The replacement for the value of a dictionary key that names an environment entry. */
  const Masked: string := "<masked>"

  /** The replacement for a leaf value `json.dumps` cannot encode. */
  const Filtered: string := "<filtered>"

  /** The replacement for captured stream text `json.dumps` cannot encode. */
  const StreamFiltered: string := "<filtered: cannot json-serialize>"

  // ---------------------------------------------------------------------------
  // diff_dicts
  // ---------------------------------------------------------------------------

  /** The entries of d1 that d2 lacks or holds with a different value. */
  function DiffDicts<K, V(==)>(d1: map<K, V>, d2: map<K, V>): map<K, V>
  {
    map k | k in d1 && (k !in d2 || d2[k] != d1[k]) :: d1[k]
  }

  /** `diff_dicts`, one key of d1 at a time: the result
      holds exactly the keys of d1 that are missing from d2 or map to another
      value there, each with its value in d1. */
  method DiffDictsLoop<K, V(==)>(d1: map<K, V>, d2: map<K, V>) returns (diff: map<K, V>)
    ensures forall k :: k in diff <==> k in d1 && (k !in d2 || d2[k] != d1[k])
    ensures forall k :: k in diff ==> diff[k] == d1[k]
    ensures diff == DiffDicts(d1, d2)
  {
    diff := map[];
    var todo := d1.Keys;
    while todo != {}
      invariant todo <= d1.Keys
      invariant forall k :: k in diff <==> k in d1 && k !in todo && (k !in d2 || d2[k] != d1[k])
      invariant forall k :: k in diff ==> diff[k] == d1[k]
      decreases todo
    {
      var key :| key in todo;
      if key !in d2 || d2[key] != d1[key] {
        diff := diff[key := d1[key]];
      }
      todo := todo - {key};
    }
  }

  /** A map has no difference from itself, and a diff never invents keys. */
  lemma DiffSelfEmpty<K, V>(d1: map<K, V>, d2: map<K, V>)
    ensures DiffDicts(d1, d1) == map[]
    ensures DiffDicts(d1, d2).Keys <= d1.Keys
  {
  }

  /** The diff is empty exactly when every entry of d1 is also an entry of d2. */
  lemma DiffEmptyIffContained<K, V>(d1: map<K, V>, d2: map<K, V>)
    ensures DiffDicts(d1, d2) == map[] <==> forall k :: k in d1 ==> k in d2 && d2[k] == d1[k]
  {
    if DiffDicts(d1, d2) == map[] {
      forall k | k in d1
        ensures k in d2 && d2[k] == d1[k]
      {
        assert k !in DiffDicts(d1, d2);
      }
    }
  }

  /** d1 is recovered from d2 and the diff: each key of d1 takes its value from
      the diff when the diff has it and from d2 otherwise. */
  lemma DiffRecoversFirst<K, V>(d1: map<K, V>, d2: map<K, V>)
    ensures (map k | k in d1 :: if k in DiffDicts(d1, d2) then DiffDicts(d1, d2)[k] else d2[k]) == d1
  {
  }

  // ---------------------------------------------------------------------------
  // filter_result
  // ---------------------------------------------------------------------------

  /** Every dictionary reached through dictionaries and lists maps each
      environment name to the mask. Other containers are not looked into. */
  predicate Redacted(envNames: set<string>, v: Value)
  {
    match v
    case Dict(entries) =>
      forall k :: k in entries ==> if k in envNames then entries[k] == Str(Masked) else Redacted(envNames, entries[k])
    case List(items) => forall i :: 0 <= i < |items| ==> Redacted(envNames, items[i])
    case _ => true
  }

  /** `filter_result`: walk dictionaries and lists, mask the value of every key
      that names an environment entry without looking at it, and replace every
      other value that cannot be encoded with a marker. */
  function FilterResult(envNames: set<string>, v: Value): (r: Value)
    ensures IsSerializable(r)
    ensures Redacted(envNames, r)
    ensures v.Dict? ==> r.Dict? && r.entries.Keys == v.entries.Keys
    ensures v.Dict? ==> forall k :: k in v.entries && k in envNames ==> r.entries[k] == Str(Masked)
    ensures v.Dict? ==> forall k :: k in v.entries && k !in envNames ==> r.entries[k] == FilterResult(envNames, v.entries[k])
    ensures v.List? ==> r.List? && |r.items| == |v.items|
    ensures v.List? ==> forall i :: 0 <= i < |v.items| ==> r.items[i] == FilterResult(envNames, v.items[i])
    ensures !v.Dict? && !v.List? && IsSerializable(v) ==> r == v
    ensures !v.Dict? && !v.List? && !IsSerializable(v) ==> r == Str(Filtered)
    decreases v, 1
  {
    match v
    case Dict(entries) =>
      Dict(map k | k in entries :: if k in envNames then Str(Masked) else FilterResult(envNames, entries[k]))
    case List(items) =>
      List(FilterItems(envNames, items))
    case _ =>
      if IsSerializable(v) then v else Str(Filtered)
  }

  /** The list comprehension of `filter_result`: each element filtered in turn. */
  function FilterItems(envNames: set<string>, items: seq<Value>): (r: seq<Value>)
    ensures |r| == |items|
    ensures forall i :: 0 <= i < |items| ==> r[i] == FilterResult(envNames, items[i])
    decreases items, 0
  {
    if items == [] then [] else [FilterResult(envNames, items[0])] + FilterItems(envNames, items[1..])
  }

  /** The values filtering leaves alone are exactly the encodable, already
      redacted ones. */
  lemma {:induction false} FilterFixedPoints(envNames: set<string>, v: Value)
    ensures FilterResult(envNames, v) == v <==> IsSerializable(v) && Redacted(envNames, v)
    decreases v
  {
    if IsSerializable(v) && Redacted(envNames, v) {
      match v
      case Dict(entries) =>
        forall k | k in entries && k !in envNames
          ensures FilterResult(envNames, entries[k]) == entries[k]
        {
          FilterFixedPoints(envNames, entries[k]);
        }
        assert FilterResult(envNames, v).entries == entries;
      case List(items) =>
        forall i | 0 <= i < |items|
          ensures FilterResult(envNames, items[i]) == items[i]
        {
          FilterFixedPoints(envNames, items[i]);
        }
        assert FilterResult(envNames, v).items == items;
      case _ =>
    }
  }

  /** Filtering twice is filtering once. */
  lemma FilterIdempotent(envNames: set<string>, v: Value)
    ensures FilterResult(envNames, FilterResult(envNames, v)) == FilterResult(envNames, v)
  {
    FilterFixedPoints(envNames, FilterResult(envNames, v));
  }

  /** With `name` in the environment, `{name: anything, other: 1}` filters to
      `{name: '<masked>', other: 1}`, whatever `anything` is. */
  lemma MaskedScenario(envNames: set<string>, name: string, anything: Value)
    requires name in envNames && "other" !in envNames
    ensures FilterResult(envNames, Dict(map[name := anything, "other" := Int(1)]))
         == Dict(map[name := Str(Masked), "other" := Int(1)])
  {
    var r := FilterResult(envNames, Dict(map[name := anything, "other" := Int(1)]));
    assert r.entries == map[name := Str(Masked), "other" := Int(1)];
  }

  /** Tuples are not walked: an encodable tuple comes back unchanged, so a
      dictionary inside it keeps the value of an environment name. */
  lemma TupleIsNotWalked(envNames: set<string>, name: string, secret: string)
    requires name in envNames
    ensures var v := Tuple([Dict(map[name := Str(secret)])]);
      FilterResult(envNames, v) == v && FilterResult(envNames, v).elems[0].entries[name] == Str(secret)
  {
    var d := Dict(map[name := Str(secret)]);
    assert IsSerializable(d);
    assert IsSerializable(Tuple([d]));
  }

  /** One step into a value: a dictionary key or a list index. */
  datatype Step = Key(name: string) | Index(i: int)

  /** The value reached from v along path p, if every step exists. */
  function Follow(v: Value, p: seq<Step>): Option<Value>
    decreases |p|
  {
    if p == [] then Some(v)
    else match p[0]
      case Key(name) => if v.Dict? && name in v.entries then Follow(v.entries[name], p[1..]) else None
      case Index(i) => if v.List? && 0 <= i < |v.items| then Follow(v.items[i], p[1..]) else None
  }

  /** A path whose keys name no environment entry, so filtering never masks along it. */
  predicate Unmasked(envNames: set<string>, p: seq<Step>)
  {
    forall j :: 0 <= j < |p| && p[j].Key? ==> p[j].name !in envNames
  }

  /** Filtering commutes with walking an unmasked path: the path exists in the
      filtered value exactly when it exists in the original, and it leads to
      the filtered form of what it led to. */
  lemma {:induction false} FilterAlongPath(envNames: set<string>, v: Value, p: seq<Step>)
    requires Unmasked(envNames, p)
    ensures Follow(FilterResult(envNames, v), p).Some? <==> Follow(v, p).Some?
    ensures Follow(v, p).Some? ==> Follow(FilterResult(envNames, v), p).value == FilterResult(envNames, Follow(v, p).value)
    decreases |p|
  {
    if p != [] {
      var r := FilterResult(envNames, v);
      assert Unmasked(envNames, p[1..]) by {
        forall j | 0 <= j < |p[1..]| && p[1..][j].Key?
          ensures p[1..][j].name !in envNames
        {
          assert p[1..][j] == p[j + 1];
        }
      }
      match p[0]
      case Key(name) =>
        if v.Dict? && name in v.entries {
          assert name !in envNames;
          FilterAlongPath(envNames, v.entries[name], p[1..]);
        }
      case Index(i) =>
        if v.List? && 0 <= i < |v.items| {
          FilterAlongPath(envNames, v.items[i], p[1..]);
        }
    }
  }

  /** What filtering leaves at the end of an unmasked path: dictionaries keep
      their keys with the environment names masked, lists keep their length,
      an encodable leaf is kept and any other leaf becomes the marker. */
  lemma FilterAtPath(envNames: set<string>, v: Value, p: seq<Step>)
    requires Unmasked(envNames, p)
    ensures Follow(FilterResult(envNames, v), p).Some? <==> Follow(v, p).Some?
    ensures var at, r := Follow(v, p), Follow(FilterResult(envNames, v), p);
      at.Some? ==>
        (at.value.Dict? ==> r.value.Dict? && r.value.entries.Keys == at.value.entries.Keys
                            && forall k :: k in at.value.entries && k in envNames ==> r.value.entries[k] == Str(Masked)) &&
        (at.value.List? ==> r.value.List? && |r.value.items| == |at.value.items|) &&
        (!at.value.Dict? && !at.value.List? && IsSerializable(at.value) ==> r.value == at.value) &&
        (!at.value.Dict? && !at.value.List? && !IsSerializable(at.value) ==> r.value == Str(Filtered))
  {
    FilterAlongPath(envNames, v, p);
  }

  /** Every environment name found at the end of an unmasked path is masked. */
  lemma MaskedAtPath(envNames: set<string>, v: Value, p: seq<Step>, name: string)
    requires Unmasked(envNames, p) && name in envNames
    requires Follow(v, p + [Key(name)]).Some?
    ensures Follow(FilterResult(envNames, v), p + [Key(name)]) == Some(Str(Masked))
  {
    FollowAppend(v, p, Key(name));
    FollowAppend(FilterResult(envNames, v), p, Key(name));
    FilterAlongPath(envNames, v, p);
  }

  /** Following p + [s] is following p, then s. */
  lemma {:induction false} FollowAppend(v: Value, p: seq<Step>, s: Step)
    ensures Follow(v, p + [s]) == if Follow(v, p).None? then None else Follow(Follow(v, p).value, [s])
    decreases |p|
  {
    if p != [] {
      assert (p + [s])[0] == p[0];
      assert (p + [s])[1..] == p[1..] + [s];
      match p[0]
      case Key(name) =>
        if v.Dict? && name in v.entries {
          FollowAppend(v.entries[name], p[1..], s);
        }
      case Index(i) =>
        if v.List? && 0 <= i < |v.items| {
          FollowAppend(v.items[i], p[1..], s);
        }
    } else {
      assert p + [s] == [s];
    }
  }

  // ---------------------------------------------------------------------------
  // The engine state and one execution
  // ---------------------------------------------------------------------------

  /** How the run of a fragment ended: normally, by an exception or `SystemExit`
      (its string form and formatted traceback), or by `KeyboardInterrupt`. */
  datatype Outcome = Ok | Fault(errstr: string, traceback: string) | Interrupted

  datatype Message = Completed | InterruptedByUser

  /** The result dictionary of one execution; an absent key is None. */
  datatype ExecResult = ExecResult(
    message: Option<Message>,
    errstr: Option<string>,
    traceback: Option<string>,
    stdout: Option<string>,
    stderr: Option<string>,
    declared: Option<Value>)

  /** A history entry: the first one records the environment at the last clear;
      the others record one execution each. The entry dictionary has its `env`
      and `session` keys only when the diff is non-empty; here an empty diff
      stands for the absent key. */
  datatype Entry =
    | Initial(env: Env)
    | Executed(code: string, result: ExecResult, envDiff: Env, sessionDiff: Session)

  datatype State = State(env: Env, session: Session, history: seq<Entry>, autoGetenv: bool)

  /** Where a fragment runs: the embedded interpreter or the QPython Android runtime. */
  datatype Target = Interpreter | QPythonRuntime

  /** Everything the executed code can see: its runtime, its text, the
      fragments of the round and the engine state it starts from. */
  datatype ExecRequest = ExecRequest(target: Target, code: string, blocks: map<string, string>, state: State)

  /** What an execution leaves behind: how it ended, the raw captured streams,
      the value of `__result__`, and the environment and session maps after it.
      There is no history field: the executed code is taken to leave
      `__history__` and `runtime` alone. */
  datatype ExecReport = ExecReport(outcome: Outcome, stdout: string, stderr: string, declared: Value, env: Env, session: Session)

  type ExecOracle = ExecRequest -> ExecReport

  datatype Called = Called(state: State, result: ExecResult)

  /** `clear`: the history restarts from one entry holding the environment, and
      the session starts empty. */
  function Clear(s: State): State
  {
    State(s.env, map[], [Initial(s.env)], s.autoGetenv)
  }

  /** The constructor: `envs or {}`, then `clear`. */
  function Init(envs: Env, autoGetenv: bool): State
  {
    Clear(State(envs, map[], [], autoGetenv))
  }

  /** The constructor's state: one history entry holding the environment, an
      empty session, and the automatic-answer setting as given. */
  lemma InitState(envs: Env, autoGetenv: bool)
    ensures Init(envs, autoGetenv).history == [Initial(envs)]
    ensures Init(envs, autoGetenv).session == map[]
    ensures Init(envs, autoGetenv).env == envs && Init(envs, autoGetenv).autoGetenv == autoGetenv
  {
  }

  /** `setenv`: store `(value, desc)` under name. */
  function Setenv(s: State, name: string, value: Value, desc: Value): State
  {
    s.(env := s.env[name := EnvEntry(value, desc)])
  }

  /** The reply of `getenv` together with the state it leaves. */
  datatype Lookup = Lookup(state: State, value: Value)

  /** `getenv`: a known name answers from the environment; an unknown one answers
      the default in automatic mode, and otherwise asks the console, storing a
      non-blank answer under the name with its description. */
  function Getenv(s: State, name: string, default: Value, desc: Value, input: string): (r: Lookup)
    ensures r.state.session == s.session && r.state.history == s.history && r.state.autoGetenv == s.autoGetenv
    ensures name in s.env ==> r.state == s
    ensures name in s.env && Truthy(s.env[name].value) ==> r.value == s.env[name].value
    ensures name in s.env && !Truthy(s.env[name].value) ==> r.value == default
    ensures name !in s.env && s.autoGetenv ==> r == Lookup(s, default)
    ensures name !in s.env && !s.autoGetenv && Strip(input) != [] ==>
              r.value == Str(Strip(input)) && r.state.env == s.env[name := EnvEntry(Str(Strip(input)), desc)]
    ensures name !in s.env && !s.autoGetenv && Strip(input) == [] ==> r == Lookup(s, default)
  {
    if name in s.env then
      var value := s.env[name].value;
      Lookup(s, if Truthy(value) then value else default)
    else if s.autoGetenv then
      Lookup(s, default)
    else
      var value := Strip(input);
      if value != [] then Lookup(Setenv(s, name, Str(value), desc), Str(value))
      else Lookup(s, default)
  }

  /** `getenv` answers either the default or a truthy value. */
  lemma GetenvAnswer(s: State, name: string, default: Value, desc: Value, input: string)
    ensures var r := Getenv(s, name, default, desc, input); r.value == default || Truthy(r.value)
  {
  }

  /** A stored answer is remembered: asking again for the same name answers the
      same value, whatever the default and the console would say, and changes nothing. */
  lemma GetenvRemembers(s: State, name: string, default: Value, desc: Value, input: string,
                        default': Value, desc': Value, input': string)
    requires Getenv(s, name, default, desc, input).state != s
    ensures var first := Getenv(s, name, default, desc, input);
      Getenv(first.state, name, default', desc', input') == first
  {
  }

  /** After `setenv` of a truthy value, `getenv` of that name answers it. */
  lemma GetenvAfterSetenv(s: State, name: string, value: Value, desc: Value, default: Value, desc': Value, input: string)
    requires Truthy(value)
    ensures Getenv(Setenv(s, name, value, desc), name, default, desc', input) == Lookup(Setenv(s, name, value, desc), value)
  {
  }

  /** `qpy_is_webapp` picks the runtime. */
  function TargetOf(code: string): Target
  {
    if QPython.IsWebapp(code) then QPythonRuntime else Interpreter
  }

  /** A captured stream: attached, stripped, when the stripped text is not
      empty. Text always encodes, so the marker for unencodable text never
      appears. */
  function Captured(raw: string): (o: Option<string>)
    ensures o.Some? <==> Strip(raw) != []
    ensures o.Some? ==> o.value == Strip(raw)
  {
    var s := Strip(raw);
    if s == [] then None
    else if IsSerializable(Str(s)) then Some(s)
    else Some(StreamFiltered)
  }

  /** The message, error text and traceback for how the run ended. */
  function Status(outcome: Outcome, declared: Value): (r: ExecResult)
    ensures outcome.Fault? ==> r.errstr == Some(outcome.errstr) && r.traceback == Some(outcome.traceback) && r.message == None
    ensures outcome.Interrupted? ==> r.message == Some(InterruptedByUser) && r.errstr == None && r.traceback == None
    ensures outcome.Ok? ==> r.errstr == None && r.traceback == None
    ensures outcome.Ok? ==> (r.message == Some(Completed) <==> !Truthy(declared))
    ensures r.message.None? && r.errstr.None? <==> outcome.Ok? && Truthy(declared)
  {
    match outcome
    case Ok => ExecResult(if Truthy(declared) then None else Some(Completed), None, None, None, None, None)
    case Fault(e, tb) => ExecResult(None, Some(e), Some(tb), None, None, None)
    case Interrupted => ExecResult(Some(InterruptedByUser), None, None, None, None, None)
  }

  /** The result dictionary of one execution. Masking uses the environment as the
      run left it, so a name the code obtained through `getenv` is masked too. */
  function BuildResult(rep: ExecReport): (r: ExecResult)
    ensures rep.outcome.Fault? ==>
              r.errstr == Some(rep.outcome.errstr) && r.traceback == Some(rep.outcome.traceback) && r.message == None
    ensures rep.outcome.Interrupted? ==>
              r.message == Some(InterruptedByUser) && r.errstr == None && r.traceback == None
    ensures rep.outcome.Ok? ==> r.errstr == None && r.traceback == None
    ensures rep.outcome.Ok? ==> (r.message == Some(Completed) <==> !Truthy(rep.declared))
    ensures r.message.None? && r.errstr.None? <==> rep.outcome.Ok? && Truthy(rep.declared)
    ensures r.stdout.Some? <==> Strip(rep.stdout) != []
    ensures r.stdout.Some? ==> r.stdout.value == Strip(rep.stdout)
    ensures r.stderr.Some? <==> Strip(rep.stderr) != []
    ensures r.stderr.Some? ==> r.stderr.value == Strip(rep.stderr)
    ensures r.declared.Some? <==> Truthy(rep.declared)
    ensures r.declared.Some? ==> r.declared.value == FilterResult(rep.env.Keys, rep.declared)
  {
    Status(rep.outcome, rep.declared).(
      stdout := Captured(rep.stdout),
      stderr := Captured(rep.stderr),
      declared := if Truthy(rep.declared) then Some(FilterResult(rep.env.Keys, rep.declared)) else None)
  }

  function MessageText(m: Message): string
  {
    match m
    case Completed => "The operation completed successfully"
    case InterruptedByUser => "Execution was interrupted by the user"
  }

  function Put(m: map<string, Value>, key: string, o: Option<Value>): map<string, Value>
  {
    if o.Some? then m[key := o.value] else m
  }

  function StrOf(o: Option<string>): Option<Value>
  {
    if o.Some? then Some(Str(o.value)) else None
  }

  /** The result as the JSON object fed back to the generator. */
  function ResultJson(r: ExecResult): Value
  {
    var message := if r.message.Some? then Some(Str(MessageText(r.message.value))) else None;
    var m0 := Put(map[], "message", message);
    var m1 := Put(m0, "errstr", StrOf(r.errstr));
    var m2 := Put(m1, "traceback", StrOf(r.traceback));
    var m3 := Put(m2, "stdout", StrOf(r.stdout));
    var m4 := Put(m3, "stderr", StrOf(r.stderr));
    Dict(Put(m4, "__result__", r.declared))
  }

  lemma PutKeepsSerializable(m: map<string, Value>, key: string, o: Option<Value>)
    requires IsSerializable(Dict(m))
    requires o.Some? ==> IsSerializable(o.value)
    ensures IsSerializable(Dict(Put(m, key, o)))
  {
  }

  /** Whatever the oracle reports, the result dictionary of a call that
      returns can be encoded for the feedback prompt, and no environment name
      leaks through a dictionary or list of the declared result. Values on
      which `json.dumps` raises something other than `TypeError`, and
      dictionary keys that are not strings, lie outside `Value`. */
  lemma ResultIsSerializable(rep: ExecReport)
    ensures IsSerializable(ResultJson(BuildResult(rep)))
    ensures BuildResult(rep).declared.Some? ==> Redacted(rep.env.Keys, BuildResult(rep).declared.value)
  {
    var r := BuildResult(rep);
    var message := if r.message.Some? then Some(Str(MessageText(r.message.value))) else None;
    var m0 := Put(map[], "message", message);
    PutKeepsSerializable(map[], "message", message);
    var m1 := Put(m0, "errstr", StrOf(r.errstr));
    PutKeepsSerializable(m0, "errstr", StrOf(r.errstr));
    var m2 := Put(m1, "traceback", StrOf(r.traceback));
    PutKeepsSerializable(m1, "traceback", StrOf(r.traceback));
    var m3 := Put(m2, "stdout", StrOf(r.stdout));
    PutKeepsSerializable(m2, "stdout", StrOf(r.stdout));
    var m4 := Put(m3, "stderr", StrOf(r.stderr));
    PutKeepsSerializable(m3, "stderr", StrOf(r.stderr));
    PutKeepsSerializable(m4, "__result__", r.declared);
  }

  /** d holds the entries of from that other removed or overwrote, with their
      values in from. */
  ghost predicate RecordsChanges<V>(from: map<string, V>, other: map<string, V>, d: map<string, V>)
  {
    && (forall k :: k in d <==> k in from && (k !in other || other[k] != from[k]))
    && (forall k :: k in d ==> d[k] == from[k])
  }

  /** What the oracle reports for the execution `Call` performs. */
  function ReportOf(s: State, code: string, blocks: map<string, string>, exec: ExecOracle): ExecReport
  {
    exec(ExecRequest(TargetOf(code), code, blocks, s))
  }

  /** `__call__`: run code on the runtime `qpy_is_webapp` picks, build the
      result, and append one history entry. The environment diff keeps the
      pre-call values of the names the run removed or overwrote (names it added
      do not appear); the session diff keeps the post-call values of the names
      the run added or changed. */
  function Call(s: State, code: string, blocks: map<string, string>, exec: ExecOracle): (c: Called)
    ensures c.result == BuildResult(ReportOf(s, code, blocks, exec))
    ensures c.state.env == ReportOf(s, code, blocks, exec).env
    ensures c.state.session == ReportOf(s, code, blocks, exec).session
    ensures c.state.autoGetenv == s.autoGetenv
    ensures |c.state.history| == |s.history| + 1 && c.state.history[..|s.history|] == s.history
    ensures c.state.history[|s.history|].Executed?
    ensures c.state.history[|s.history|].code == code && c.state.history[|s.history|].result == c.result
    ensures RecordsChanges(s.env, c.state.env, c.state.history[|s.history|].envDiff)
    ensures RecordsChanges(c.state.session, s.session, c.state.history[|s.history|].sessionDiff)
  {
    var rep := ReportOf(s, code, blocks, exec);
    var result := BuildResult(rep);
    var entry := Executed(code, result, DiffDicts(s.env, rep.env), DiffDicts(rep.session, s.session));
    Called(State(rep.env, rep.session, s.history + [entry], s.autoGetenv), result)
  }

  /** Runs the fragments one after another, each on the state the previous one left. */
  function CallAll(s: State, fragments: seq<(string, map<string, string>)>, exec: ExecOracle): State
    decreases |fragments|
  {
    if fragments == [] then s
    else CallAll(Call(s, fragments[0].0, fragments[0].1, exec).state, fragments[1..], exec)
  }

  /** Each execution appends exactly one entry and keeps the earlier ones. */
  lemma {:induction false} HistoryGrowsByOne(s: State, fragments: seq<(string, map<string, string>)>, exec: ExecOracle)
    ensures |CallAll(s, fragments, exec).history| == |s.history| + |fragments|
    ensures s.history <= CallAll(s, fragments, exec).history
    decreases |fragments|
  {
    if fragments != [] {
      var s' := Call(s, fragments[0].0, fragments[0].1, exec).state;
      assert s.history <= s'.history;
      HistoryGrowsByOne(s', fragments[1..], exec);
    }
  }

  /** After `clear` and n executions the history has n + 1 entries, the first
      holding the environment as it was at the clear; `clear` itself keeps the
      environment and empties the session. */
  lemma HistoryAfterClear(s: State, fragments: seq<(string, map<string, string>)>, exec: ExecOracle)
    ensures Clear(s).env == s.env && Clear(s).session == map[]
    ensures |CallAll(Clear(s), fragments, exec).history| == |fragments| + 1
    ensures CallAll(Clear(s), fragments, exec).history[0] == Initial(s.env)
  {
    HistoryGrowsByOne(Clear(s), fragments, exec);
  }
}

=== FILE: task.dfy ===
/**
 The round controller of a task (`Task.run` with `process_code_reply`).

 A run sends the first prompt to the generator, then repeats: parse the reply,
 stop when it has no `main` block, execute `main` with the whole block map on
 the runner, and send the result back as the next prompt. It ends on an empty
 reply, when the round budget is spent, or when the stop flag is raised after
 an execution.

 The generator and the stop flag are oracle sequences: reply i answers the
 i-th call (0 is the first prompt, i + 1 the feedback after execution i), and
 flag k is read after execution k. Past their ends the generator answers ""
 and the flag is down.
 */
module Task {
  import opened Wrappers
  import opened Values
  import ReplyParser
  import Runner

  /** The default round budget. */
  const MaxRounds: nat := 16

  /** A task: the instruction it was created with, its system prompt and its
      own round budget (each may be absent). */
  datatype Task = Task(instruction: string, systemPrompt: Option<string>, maxRounds: Option<int>)

  /** What a prompt to the generator carries. The user prompt is a JSON
      object whose `task` field is the instruction (its platform fields are
      not modelled); the feedback holds the task's instruction and the
      result, which the prompt spells as the JSON object `Runner.ResultJson`
      builds. */
  datatype Prompt =
    | UserPrompt(task: string)
    | Instruction(text: string)
    | Feedback(instruction: string, result: Runner.ExecResult)

  /** One call of the generator: the prompt, the system prompt, and the name of
      the generator to use. */
  datatype LlmCall = LlmCall(prompt: Prompt, systemPrompt: Option<string>, name: Option<string>)

  /** One execution: the code run, the block map it was run with, its result. */
  datatype Execution = Execution(code: string, blocks: map<string, string>, result: Runner.ExecResult)

  /** Why the loop ended. */
  datatype Ending = EmptyReply | BudgetSpent | NoMain | StopRequested

  /** Python truthiness of an optional string argument. */
  predicate Given(o: Option<string>)
  {
    o.Some? && o.value != []
  }

  /** The effective budget: the argument when it is a nonzero number, the
      task's own otherwise; anything absent, zero or below one gives 16. */
  function Budget(arg: Option<int>, own: Option<int>): (m: nat)
    ensures m >= 1
    ensures m == if arg.Some? && arg.value >= 1 then arg.value
                 else if arg.Some? && arg.value < 0 then MaxRounds
                 else if own.Some? && own.value >= 1 then own.value
                 else MaxRounds
  {
    var chosen := if arg.Some? && arg.value != 0 then arg else own;
    if chosen.None? || chosen.value < 1 then MaxRounds else chosen.value
  }

  /** The answer to the i-th call of the generator. */
  function Reply(replies: seq<string>, i: nat): string
  {
    if i < |replies| then replies[i] else ""
  }

  /** Whether the stop flag is up after execution k. */
  predicate Stopped(stops: seq<bool>, k: nat)
  {
    k < |stops| && stops[k]
  }

  /** The first call: the user prompt with the task's system prompt when `run`
      is given no instruction, the instruction with no system prompt otherwise. */
  function FirstCall(t: Task, instruction: Option<string>, name: Option<string>): (c: LlmCall)
    ensures !Given(instruction) ==> c.prompt == UserPrompt(t.instruction) && c.systemPrompt == t.systemPrompt
    ensures Given(instruction) ==> c.prompt == Instruction(instruction.value) && c.systemPrompt == None
    ensures c.name == name
  {
    if Given(instruction) then LlmCall(Instruction(instruction.value), None, name)
    else LlmCall(UserPrompt(t.instruction), t.systemPrompt, name)
  }

  /** The feedback call after an execution: always the task's own instruction,
      never a system prompt. */
  function FeedbackCall(t: Task, name: Option<string>, result: Runner.ExecResult): LlmCall
  {
    LlmCall(Feedback(t.instruction, result), None, name)
  }

  /** The collaborators of the loop: the generator name, the task's reply
      parser, its runner (state, code, block map to the call's outcome), the
      generator's answers and the stop flags. */
  datatype Loop = Loop(
    name: Option<string>,
    parse: string -> map<string, string>,
    execute: (Runner.State, string, map<string, string>) -> Runner.Called,
    replies: seq<string>,
    stops: seq<bool>)

  /** Execution e was triggered by the answer to call i: that answer is not
      empty, its block map has `main`, and `main` is the code run. */
  predicate Executes(x: Loop, i: nat, e: Execution)
  {
    && Reply(x.replies, i) != []
    && e.blocks == x.parse(Reply(x.replies, i))
    && "main" in e.blocks
    && e.code == e.blocks["main"]
  }

  /** What the loop does from the point where k executions are done (the
      round counter is k + 1) and the answer to call k is at hand. */
  datatype Rest = Rest(executions: seq<Execution>, feedback: seq<LlmCall>, runner: Runner.State, ending: Ending)

  /** The `while` loop of `run`, from k executions on. */
  function Rounds(t: Task, x: Loop, budget: nat, runner: Runner.State, k: nat): (r: Rest)
    requires k <= budget
    ensures |r.feedback| == |r.executions| && k + |r.executions| <= budget
    decreases budget - k
  {
    var response := Reply(x.replies, k);
    if response == [] then Rest([], [], runner, EmptyReply)
    else if k + 1 > budget then Rest([], [], runner, BudgetSpent)
    else
      var blocks := x.parse(response);
      if "main" !in blocks then Rest([], [], runner, NoMain)
      else
        var c := x.execute(runner, blocks["main"], blocks);
        var e := Execution(blocks["main"], blocks, c.result);
        var f := FeedbackCall(t, x.name, c.result);
        if Stopped(x.stops, k) then Rest([e], [f], c.state, StopRequested)
        else
          var r := Rounds(t, x, budget, c.state, k + 1);
          Rest([e] + r.executions, [f] + r.feedback, r.runner, r.ending)
  }

  /** Execution j of the loop from k was triggered by the answer to call k + j,
      and feedback call j carries its result. */
  lemma {:induction false} RoundsStep(t: Task, x: Loop, budget: nat, runner: Runner.State, k: nat, j: nat)
    requires k <= budget && j < |Rounds(t, x, budget, runner, k).executions|
    ensures Executes(x, k + j, Rounds(t, x, budget, runner, k).executions[j])
    ensures Rounds(t, x, budget, runner, k).feedback[j] == FeedbackCall(t, x.name, Rounds(t, x, budget, runner, k).executions[j].result)
    decreases j
  {
    if j > 0 {
      var blocks := x.parse(Reply(x.replies, k));
      var c := x.execute(runner, blocks["main"], blocks);
      RoundsStep(t, x, budget, c.state, k + 1, j - 1);
    }
  }

  /** Why the loop from k stopped, with n executions done: after a raised stop
      flag, which no earlier execution raised; otherwise on the empty answer to
      call k + n, on the spent budget, or on an answer without `main`. */
  lemma {:induction false} RoundsEnding(t: Task, x: Loop, budget: nat, runner: Runner.State, k: nat)
    requires k <= budget
    ensures var r := Rounds(t, x, budget, runner, k);
      r.ending == StopRequested <==> |r.executions| > 0 && Stopped(x.stops, k + |r.executions| - 1)
    ensures var r := Rounds(t, x, budget, runner, k);
      forall i :: k <= i < k + |r.executions| - 1 ==> !Stopped(x.stops, i)
    ensures var r := Rounds(t, x, budget, runner, k);
      r.ending == EmptyReply ==> Reply(x.replies, k + |r.executions|) == []
    ensures var r := Rounds(t, x, budget, runner, k);
      r.ending == BudgetSpent ==> Reply(x.replies, k + |r.executions|) != [] && k + |r.executions| == budget
    ensures var r := Rounds(t, x, budget, runner, k);
      r.ending == NoMain ==>
        && Reply(x.replies, k + |r.executions|) != []
        && k + |r.executions| < budget
        && "main" !in x.parse(Reply(x.replies, k + |r.executions|))
    decreases budget - k
  {
    var response := Reply(x.replies, k);
    if response != [] && k + 1 <= budget {
      var blocks := x.parse(response);
      if "main" in blocks && !Stopped(x.stops, k) {
        var c := x.execute(runner, blocks["main"], blocks);
        RoundsEnding(t, x, budget, c.state, k + 1);
        var r' := Rounds(t, x, budget, c.state, k + 1);
        assert |Rounds(t, x, budget, runner, k).executions| == 1 + |r'.executions|;
      }
    }
  }

  /** The runner appends one history entry per call, recording the code and
      the result, and keeps the earlier entries. */
  predicate AppendsOne(s: Runner.State, code: string, c: Runner.Called)
  {
    && |c.state.history| == |s.history| + 1
    && s.history <= c.state.history
    && c.state.history[|s.history|].Executed?
    && c.state.history[|s.history|].code == code
    && c.state.history[|s.history|].result == c.result
  }

  ghost predicate AppendsEach(execute: (Runner.State, string, map<string, string>) -> Runner.Called)
  {
    forall s, code, blocks :: AppendsOne(s, code, execute(s, code, blocks))
  }

  /** The loop leaves one history entry per execution after the entries the
      runner already had. */
  lemma {:induction false} RoundsHistory(t: Task, x: Loop, budget: nat, runner: Runner.State, k: nat)
    requires k <= budget && AppendsEach(x.execute)
    ensures var r := Rounds(t, x, budget, runner, k);
      |r.runner.history| == |runner.history| + |r.executions| && runner.history <= r.runner.history
    decreases budget - k
  {
    var response := Reply(x.replies, k);
    if response != [] && k + 1 <= budget {
      var blocks := x.parse(response);
      if "main" in blocks {
        var c := x.execute(runner, blocks["main"], blocks);
        assert AppendsOne(runner, blocks["main"], c);
        if !Stopped(x.stops, k) {
          RoundsHistory(t, x, budget, c.state, k + 1);
        }
      }
    }
  }

  /** A loop that executes at least once ran `main` of the answer to call k
      first, then stopped or went on from the state that execution left. */
  lemma RoundsFirst(t: Task, x: Loop, budget: nat, runner: Runner.State, k: nat)
    requires k <= budget && |Rounds(t, x, budget, runner, k).executions| > 0
    ensures Reply(x.replies, k) != [] && k < budget && "main" in x.parse(Reply(x.replies, k))
    ensures var blocks := x.parse(Reply(x.replies, k));
      var c := x.execute(runner, blocks["main"], blocks);
      var r := Rounds(t, x, budget, runner, k);
      && r.executions[0] == Execution(blocks["main"], blocks, c.result)
      && (Stopped(x.stops, k) ==> r.executions == [r.executions[0]] && r.runner == c.state)
      && (!Stopped(x.stops, k) ==>
            && r.executions == [r.executions[0]] + Rounds(t, x, budget, c.state, k + 1).executions
            && r.runner == Rounds(t, x, budget, c.state, k + 1).runner)
  {
  }

  /** History entry i, past the runner's earlier entries, records the
      execution with the same offset. */
  lemma {:induction false} RoundsHistoryEntry(t: Task, x: Loop, budget: nat, runner: Runner.State, k: nat, i: nat)
    requires k <= budget && AppendsEach(x.execute)
    requires |runner.history| <= i < |runner.history| + |Rounds(t, x, budget, runner, k).executions|
    ensures var r := Rounds(t, x, budget, runner, k);
      && i < |r.runner.history|
      && r.runner.history[i].Executed?
      && r.runner.history[i].code == r.executions[i - |runner.history|].code
      && r.runner.history[i].result == r.executions[i - |runner.history|].result
    decreases budget - k
  {
    RoundsFirst(t, x, budget, runner, k);
    var blocks := x.parse(Reply(x.replies, k));
    var c := x.execute(runner, blocks["main"], blocks);
    assert AppendsOne(runner, blocks["main"], c);
    if !Stopped(x.stops, k) {
      RoundsHistory(t, x, budget, c.state, k + 1);
      if i > |runner.history| {
        RoundsHistoryEntry(t, x, budget, c.state, k + 1, i);
      }
    }
  }

  /** Every history entry past the runner's earlier entries records its
      execution. */
  lemma RoundsHistoryEntries(t: Task, x: Loop, budget: nat, runner: Runner.State, k: nat)
    requires k <= budget && AppendsEach(x.execute)
    ensures var r := Rounds(t, x, budget, runner, k);
      forall i :: |runner.history| <= i < |runner.history| + |r.executions| ==>
        && i < |r.runner.history|
        && r.runner.history[i].Executed?
        && r.runner.history[i].code == r.executions[i - |runner.history|].code
        && r.runner.history[i].result == r.executions[i - |runner.history|].result
  {
    forall i | |runner.history| <= i < |runner.history| + |Rounds(t, x, budget, runner, k).executions| {
      RoundsHistoryEntry(t, x, budget, runner, k, i);
    }
  }

  // ---------------------------------------------------------------------------
  // run
  // ---------------------------------------------------------------------------

  /** The loop parses with `parse_reply` and the word class w. */
  ghost predicate ParsesWith(x: Loop, w: ReplyParser.WordClass)
  {
    forall reply :: x.parse(reply) == ReplyParser.ParseReply(w, reply)
  }

  /** The loop executes with the runner's `__call__` and the execution oracle. */
  ghost predicate CallsWith(x: Loop, exec: Runner.ExecOracle)
  {
    forall s, code, blocks :: x.execute(s, code, blocks) == Runner.Call(s, code, blocks, exec)
  }

  /** The collaborators of a task, built from the word class and the oracles. */
  function Wire(name: Option<string>, w: ReplyParser.WordClass, exec: Runner.ExecOracle, replies: seq<string>, stops: seq<bool>): (x: Loop)
    ensures ParsesWith(x, w) && CallsWith(x, exec)
    ensures x.name == name && x.replies == replies && x.stops == stops
  {
    Loop(name,
         reply => ReplyParser.ParseReply(w, reply),
         (s, code, blocks) => Runner.Call(s, code, blocks, exec),
         replies, stops)
  }

  /** The runner's `__call__` appends one entry per call. */
  lemma CallsAppendEach(x: Loop, exec: Runner.ExecOracle)
    requires CallsWith(x, exec)
    ensures AppendsEach(x.execute)
  {
    forall s, code, blocks
      ensures AppendsOne(s, code, x.execute(s, code, blocks))
    {
      var c := Runner.Call(s, code, blocks, exec);
      assert s.history <= c.state.history;
    }
  }

  /** The outcome of `run`: every generator call in order, every execution in
      order, the runner afterwards, the final round counter and why it ended. */
  datatype RunResult = RunResult(calls: seq<LlmCall>, executions: seq<Execution>, runner: Runner.State, rounds: nat, ending: Ending)

  /** `run(instruction, llm=name, max_rounds=maxRounds)` on a runner in the given
      state: one first call, then the loop; the generator is called once more per
      execution, and the round counter ends one above the number of executions. */
  function Run(t: Task, instruction: Option<string>, maxRounds: Option<int>, runner: Runner.State, x: Loop): (r: RunResult)
    ensures |r.executions| <= Budget(maxRounds, t.maxRounds)
    ensures |r.calls| == |r.executions| + 1 && r.rounds == |r.executions| + 1
    ensures r.calls[0] == FirstCall(t, instruction, x.name)
  {
    var rest := Rounds(t, x, Budget(maxRounds, t.maxRounds), runner, 0);
    RunResult([FirstCall(t, instruction, x.name)] + rest.feedback, rest.executions, rest.runner, |rest.executions| + 1, rest.ending)
  }

  /** Execution j runs `main` of the parsed answer to call j with the whole
      block map, and call j + 1 feeds its result back; for any collaborators. */
  lemma RunTraceLoop(t: Task, instruction: Option<string>, maxRounds: Option<int>, runner: Runner.State,
                     x: Loop, j: nat)
    requires j < |Run(t, instruction, maxRounds, runner, x).executions|
    ensures var e := Run(t, instruction, maxRounds, runner, x).executions[j];
      && Reply(x.replies, j) != []
      && e.blocks == x.parse(Reply(x.replies, j))
      && "main" in e.blocks
      && e.code == e.blocks["main"]
    ensures var r := Run(t, instruction, maxRounds, runner, x);
      r.calls[j + 1] == FeedbackCall(t, x.name, r.executions[j].result)
  {
    RoundsStep(t, x, Budget(maxRounds, t.maxRounds), runner, 0, j);
  }

  /** The same with the task's parser: the block map of execution j is what
      `parse_reply` finds in answer j. */
  lemma RunTrace(t: Task, instruction: Option<string>, maxRounds: Option<int>, runner: Runner.State,
                 x: Loop, w: ReplyParser.WordClass, j: nat)
    requires ParsesWith(x, w)
    requires j < |Run(t, instruction, maxRounds, runner, x).executions|
    ensures var e := Run(t, instruction, maxRounds, runner, x).executions[j];
      && Reply(x.replies, j) != []
      && e.blocks == ReplyParser.ParseReply(w, Reply(x.replies, j))
      && "main" in e.blocks
      && e.code == e.blocks["main"]
    ensures var r := Run(t, instruction, maxRounds, runner, x);
      r.calls[j + 1] == FeedbackCall(t, x.name, r.executions[j].result)
  {
    RunTraceLoop(t, instruction, maxRounds, runner, x, j);
  }

  /** Why `run` ended after n executions: the stop flag raised after the last
      one (and after no earlier one); or the empty answer to call n; or the
      budget, with n equal to it; or an answer to call n without `main`; for
      any collaborators. */
  lemma RunEndingLoop(t: Task, instruction: Option<string>, maxRounds: Option<int>, runner: Runner.State,
                      x: Loop)
    ensures var r := Run(t, instruction, maxRounds, runner, x);
      r.ending == StopRequested <==> |r.executions| > 0 && Stopped(x.stops, |r.executions| - 1)
    ensures var r := Run(t, instruction, maxRounds, runner, x);
      forall i :: 0 <= i < |r.executions| - 1 ==> !Stopped(x.stops, i)
    ensures var r := Run(t, instruction, maxRounds, runner, x);
      r.ending == EmptyReply ==> Reply(x.replies, |r.executions|) == []
    ensures var r := Run(t, instruction, maxRounds, runner, x);
      r.ending == BudgetSpent ==>
        Reply(x.replies, |r.executions|) != [] && |r.executions| == Budget(maxRounds, t.maxRounds)
    ensures var r := Run(t, instruction, maxRounds, runner, x);
      r.ending == NoMain ==>
        && Reply(x.replies, |r.executions|) != []
        && |r.executions| < Budget(maxRounds, t.maxRounds)
        && "main" !in x.parse(Reply(x.replies, |r.executions|))
  {
    RoundsEnding(t, x, Budget(maxRounds, t.maxRounds), runner, 0);
  }

  /** The same with the task's parser: in the last case `parse_reply` finds no
      `main` block in answer n. */
  lemma RunEnding(t: Task, instruction: Option<string>, maxRounds: Option<int>, runner: Runner.State,
                  x: Loop, w: ReplyParser.WordClass)
    requires ParsesWith(x, w)
    ensures var r := Run(t, instruction, maxRounds, runner, x);
      r.ending == StopRequested <==> |r.executions| > 0 && Stopped(x.stops, |r.executions| - 1)
    ensures var r := Run(t, instruction, maxRounds, runner, x);
      forall i :: 0 <= i < |r.executions| - 1 ==> !Stopped(x.stops, i)
    ensures var r := Run(t, instruction, maxRounds, runner, x);
      r.ending == EmptyReply ==> Reply(x.replies, |r.executions|) == []
    ensures var r := Run(t, instruction, maxRounds, runner, x);
      r.ending == BudgetSpent ==>
        Reply(x.replies, |r.executions|) != [] && |r.executions| == Budget(maxRounds, t.maxRounds)
    ensures var r := Run(t, instruction, maxRounds, runner, x);
      r.ending == NoMain ==>
        && Reply(x.replies, |r.executions|) != []
        && |r.executions| < Budget(maxRounds, t.maxRounds)
        && "main" !in ReplyParser.ParseReply(w, Reply(x.replies, |r.executions|))
  {
    RunEndingLoop(t, instruction, maxRounds, runner, x);
  }

  /** `run` leaves one runner history entry per execution, recording its code
      and result, after the entries the runner already had, whenever each
      execution appends one entry (as the runner's `__call__` does, see
      `CallsAppendEach`). */
  lemma RunHistory(t: Task, instruction: Option<string>, maxRounds: Option<int>, runner: Runner.State, x: Loop)
    requires AppendsEach(x.execute)
    ensures var r := Run(t, instruction, maxRounds, runner, x);
      |r.runner.history| == |runner.history| + |r.executions| && runner.history <= r.runner.history
    ensures var r := Run(t, instruction, maxRounds, runner, x);
      forall i :: |runner.history| <= i < |r.runner.history| ==>
        && r.runner.history[i].Executed?
        && r.runner.history[i].code == r.executions[i - |runner.history|].code
        && r.runner.history[i].result == r.executions[i - |runner.history|].result
  {
    var budget := Budget(maxRounds, t.maxRounds);
    RoundsHistory(t, x, budget, runner, 0);
    RoundsHistoryEntries(t, x, budget, runner, 0);
  }

  /** When every answer within the budget has `main` and no stop flag comes
      before the last round, `run` uses the whole budget. */
  lemma RunFullBudget(t: Task, instruction: Option<string>, maxRounds: Option<int>, runner: Runner.State,
                      x: Loop, w: ReplyParser.WordClass)
    requires ParsesWith(x, w)
    requires forall i :: 0 <= i < Budget(maxRounds, t.maxRounds) ==>
               Reply(x.replies, i) != [] && "main" in ReplyParser.ParseReply(w, Reply(x.replies, i))
    requires forall i :: 0 <= i < Budget(maxRounds, t.maxRounds) - 1 ==> !Stopped(x.stops, i)
    ensures |Run(t, instruction, maxRounds, runner, x).executions| == Budget(maxRounds, t.maxRounds)
  {
    RunEndingLoop(t, instruction, maxRounds, runner, x);
  }

  /** With a budget of one and a first answer that has `main`, exactly one
      execution happens, whatever the later answers are. */
  lemma RunBudgetOne(t: Task, instruction: Option<string>, maxRounds: Option<int>, runner: Runner.State,
                     x: Loop, w: ReplyParser.WordClass)
    requires ParsesWith(x, w)
    requires Budget(maxRounds, t.maxRounds) == 1
    requires Reply(x.replies, 0) != [] && "main" in ReplyParser.ParseReply(w, Reply(x.replies, 0))
    ensures |Run(t, instruction, maxRounds, runner, x).executions| == 1
  {
    RunFullBudget(t, instruction, maxRounds, runner, x, w);
  }

  /** A first answer in which the pattern matches nowhere ends `run` at once:
      no execution, the round counter still 1, the runner untouched. */
  lemma RunWithoutBlocks(t: Task, instruction: Option<string>, maxRounds: Option<int>, runner: Runner.State,
                         x: Loop, w: ReplyParser.WordClass)
    requires ParsesWith(x, w) && ReplyParser.WordClassOk(w)
    requires Reply(x.replies, 0) != []
    requires forall p :: 0 <= p <= |Reply(x.replies, 0)| ==> !ReplyParser.AnyMatchAt(w, Reply(x.replies, 0), p)
    ensures var r := Run(t, instruction, maxRounds, runner, x);
      r.executions == [] && r.rounds == 1 && r.ending == NoMain && r.runner == runner
  {
    ReplyParser.NoMatchNoBlocks(w, Reply(x.replies, 0));
  }
}

=== FILE: text.dfy ===
/**
 Character classes and trimming of strings, as Python 3's `str` methods and
 `re` module perform them on `str` values.
 */
module Text {

  /** Python's whitespace: what `str.isspace` accepts and what `\s` matches in a str pattern. */
  predicate IsSpace(c: char)
  {
    || c == ' '
    || ('\t' <= c <= '\r')            // \t \n \v \f \r
    || ('\U{1C}' <= c <= '\U{1F}')    // file, group, record and unit separators
    || c == '\U{85}' || c == '\U{A0}' || c == '\U{1680}'
    || ('\U{2000}' <= c <= '\U{200A}')
    || c == '\U{2028}' || c == '\U{2029}' || c == '\U{202F}' || c == '\U{205F}' || c == '\U{3000}'
  }

  predicate IsNewline(c: char)
  {
    c == '\n'
  }

  /** Every character of s is accepted by p. */
  predicate All(s: string, p: char -> bool)
  {
    forall k :: 0 <= k < |s| ==> p(s[k])
  }

  /** Drops the longest prefix of characters accepted by drop. */
  function TrimStart(s: string, drop: char -> bool): (r: string)
    ensures |r| <= |s| && r == s[|s| - |r|..]
    ensures All(s[..|s| - |r|], drop)
    ensures r == [] || !drop(r[0])
    decreases |s|
  {
    if s != [] && drop(s[0]) then TrimStart(s[1..], drop) else s
  }

  /** Drops the longest suffix of characters accepted by drop. */
  function TrimEnd(s: string, drop: char -> bool): (r: string)
    ensures |r| <= |s| && r == s[..|r|]
    ensures All(s[|r|..], drop)
    ensures r == [] || !drop(r[|r| - 1])
    decreases |s|
  {
    if s != [] && drop(s[|s| - 1]) then TrimEnd(s[..|s| - 1], drop) else s
  }

  /** Python's `s.strip()`. */
  function Strip(s: string): string
  {
    TrimEnd(TrimStart(s, IsSpace), IsSpace)
  }

  /** Python's `s.rstrip('\n')`. */
  function RStripNewlines(s: string): string
  {
    TrimEnd(s, IsNewline)
  }

  /** Strip removes surrounding whitespace and nothing else: the result is a
      slice of s with whitespace on both sides of it and at neither of its ends. */
  lemma StripIsTrimmedSlice(s: string)
    ensures exists i, j :: 0 <= i <= j <= |s| && Strip(s) == s[i..j] && All(s[..i], IsSpace) && All(s[j..], IsSpace)
    ensures Strip(s) == [] || (!IsSpace(Strip(s)[0]) && !IsSpace(Strip(s)[|Strip(s)| - 1]))
  {
    var a := TrimStart(s, IsSpace);
    var i := |s| - |a|;
    var r := TrimEnd(a, IsSpace);
    var j := i + |r|;
    assert 0 <= i <= j <= |s| && r == s[i..j] && All(s[..i], IsSpace) && All(s[j..], IsSpace) by {
      assert a == s[i..];
      assert r == a[..|r|];
      assert s[j..] == a[|r|..];
    }
    assert r == [] || (!IsSpace(r[0]) && !IsSpace(r[|r| - 1])) by {
      if r != [] {
        assert r[0] == a[0];
      }
    }
  }

  /** Strip gives the empty string exactly when every character is whitespace. */
  lemma StripEmptyIffAllSpace(s: string)
    ensures Strip(s) == [] <==> All(s, IsSpace)
  {
    var a := TrimStart(s, IsSpace);
    if Strip(s) == [] {
      if a != [] {
        assert false;
      }
      assert s[..|s|] == s;
    }
  }

  /** pat occurs in text starting at index i. */
  predicate OccursAt(text: string, pat: string, i: int)
  {
    0 <= i && i + |pat| <= |text| && text[i..i + |pat|] == pat
  }

  /** Whether pat occurs in text (Python's `pat in text`). */
  function Contains(text: string, pat: string): (b: bool)
    ensures b <==> exists i :: OccursAt(text, pat, i)
    decreases |text|
  {
    if |text| < |pat| then false
    else if text[..|pat|] == pat then assert OccursAt(text, pat, 0); true
    else
      var b := Contains(text[1..], pat);
      assert b ==> exists i :: OccursAt(text, pat, i) by {
        if b {
          var i :| OccursAt(text[1..], pat, i);
          assert text[i + 1..i + 1 + |pat|] == text[1..][i..i + |pat|];
          assert OccursAt(text, pat, i + 1);
        }
      }
      assert (exists i :: OccursAt(text, pat, i)) ==> b by {
        if exists i :: OccursAt(text, pat, i) {
          var i :| OccursAt(text, pat, i);
          assert i != 0;
          assert text[1..][i - 1..i - 1 + |pat|] == text[i..i + |pat|];
          assert OccursAt(text[1..], pat, i - 1);
        }
      }
      b
  }
}

=== FILE: values.dfy ===
/**
 The values that executed code can leave in its declared-result channel, and
 the two Python judgements the engine makes about them: truthiness and
 whether `json.dumps` can encode them.
 */
module Values {

  /** A Python object as far as the engine looks at it. */
  datatype Value =
    | Null
    | Bool(b: bool)
    | Int(i: int)
    | Float(r: real)
    | Str(s: string)
    | List(items: seq<Value>)
    | Tuple(elems: seq<Value>)
    | Dict(entries: map<string, Value>)
      /** Any object `json.dumps` rejects (a set, bytes, a module, a user class);
          truthy says what Python's `bool()` gives for it. */
    | Opaque(kind: string, truthy: bool)

  /** Python's truthiness: `None`, `False`, `0`, `0.0`, `''` and empty containers are false. */
  predicate Truthy(v: Value)
  {
    match v
    case Null => false
    case Bool(b) => b
    case Int(i) => i != 0
    case Float(r) => r != 0.0
    case Str(s) => s != []
    case List(items) => items != []
    case Tuple(elems) => elems != []
    case Dict(entries) => entries != map[]
    case Opaque(_, t) => t
  }

  /** Whether `json.dumps` accepts the value: numbers, strings, `None` and
      booleans always (floats are finite reals here), tuples are encoded as
      arrays, and a container is accepted exactly when everything inside it is. */
  predicate IsSerializable(v: Value)
  {
    match v
    case List(items) => forall i :: 0 <= i < |items| ==> IsSerializable(items[i])
    case Tuple(elems) => forall i :: 0 <= i < |elems| ==> IsSerializable(elems[i])
    case Dict(entries) => forall k :: k in entries ==> IsSerializable(entries[k])
    case Opaque(_, _) => false
    case _ => true
  }
}

=== FILE: wrappers.dfy ===
/** The optional-value datatype used for Python's "absent key" and `None`. */
module Wrappers {

  datatype Option<+T> = None | Some(value: T)
}
